=== FILE: README.md ===
# Journal API — a verified model of its decision logic

The journal API lets users register and log in, then create, list, read,
update and delete short journal entries (work done, struggle, intention).
This project models in Dafny the logic that sits around its I/O:

- **Authentication** (`api/services/auth_service.py`): the password policy,
  registration (taken username first, then password strength, then hash and
  store), login (one error for an unknown user and for a wrong password),
  and resolution of a token's subject.
- **The store-backed entry service** (`api/services/entry_service.py`):
  create, list, read, merge-update and delete over an abstract entry store,
  with store errors translated into `EntryNotFoundError` and `JournalError`.
- **The in-memory journal** (`main.py`): a dict from id to entry with the
  five CRUD handlers, and a 404 for an unknown id.
- **Record shapes** (`models/entry.py`, `api/models/entry.py`,
  `api/models/user.py`): field constraints and defaults, as parsing functions
  that return the record or a validation error naming each failing field.
- **Error-translating wrappers** (`api/utils/decorator.py`).

Everything is a pure function over immutable values. A store is a value
that goes in and comes out, and a raised exception is the `Err` case of a
`Result`. The Python dict becomes an `OrderedMaps.OrderedMap`: a map plus
the order in which keys were first inserted, which is the order iteration
visits them. The store behind the entry service holds its documents the same
way, keyed by entry id. Each store call takes a `Fault`: `None` when the
call is served normally, or the Azure error it fails with (a Cosmos HTTP
error with its status, a request that never reached the database, or
another Azure error such as a lost response). bcrypt is a `Crypto` pair of
functions. The one fact relied on is that a password verifies against any
hash of it (`AuthService.Sound`). The outcome of `jwt.decode`, the clock,
`uuid4` and `bcrypt.gensalt` are parameters.

Points about the code's behaviour:

- Entries are addressed by id alone. There is no owner and no per-user
  scoping.
- Creation is an upsert, so nothing enforces one entry per user per day.
- A token that `jwt.decode` rejects raises the library's own error
  (`Errors.TokenError`), not `IncorrectCredentials`.
- `authenticate_user` returns the stored record, not a user id.
- `register_user` returns `True`.
- The store-backed entry's `updated_at` starts as the string `"None"`.
- Token expiry counts days (see Findings).
- The service's listing passes `exclude` as a list, which pydantic refuses,
  so it fails for any non-empty store (see Findings).
  `EntryService.GetAllEntries` is the corrected listing;
  `EntryService.GetAllEntriesAsWritten` is the listing as written.
- An explicit `null` in a `main.py` update body is stored as `None` (see
  Findings). `MemoryJournal.UpdateEntry` is the corrected handler;
  `MemoryJournal.UpdateEntryAsWritten` is the handler as written.

## Model

| member | source | states |
|---|---|---|
| Text.Strip | api/services/entry_service.py:90 | `strip()` yields the slice of the string after its leading whitespace that neither starts nor ends with Python whitespace and is followed only by whitespace, and it is empty exactly when the string is all whitespace |
| OrderedMaps.Put | main.py:24 | assigning a key updates the map; a new key goes to the end of the iteration order, and an existing key keeps its place |
| OrderedMaps.Remove | main.py:76 | `del` removes exactly that key, from the map and from the iteration order |
| OrderedMaps.WithoutSplices | main.py:76 | removing the key at position i closes the gap and keeps every other key in the same relative order |
| EntryModels.ParseEntryCreate | models/entry.py:6-21 | an `EntryCreate` is accepted iff intention, work and struggle are all present, are strings and have at most 256 characters; otherwise the error names exactly the failing fields |
| EntryModels.ParseEntryUpdate | models/entry.py:45-60 | every `EntryUpdate` field may be absent (the default) or null, and a string must have at most 256 characters; the error names exactly the failing fields |
| JournalModels.ParseInputEntry | api/models/entry.py:6-20 | an `InputEntry` is accepted iff work, struggle and intention are all present, are strings and have at most 256 characters; the error names exactly the failing fields |
| EntryModels.NewResponse | models/entry.py:23-35 | the response record carries the input's text, the fresh id and the creation time, with `updated_at` defaulting to none; valid input gives a record within the limits |
| JournalModels.Enrich | api/models/entry.py:22-34 | the enriched record carries the input's text, the fresh id and the creation time, with `updated_at` defaulting to the string "None"; valid input gives a record within the limits |
| UserModels.NewUserInDB | api/models/user.py:6-17 | the stored user carries the fresh id, the username and the hash, and `disabled` defaults to false |
| UserModels.ParseCreateUser | api/models/user.py:20-31 | a registration body is accepted iff the username has 2 to 25 characters and the password at least 2; the error names exactly the failing fields |
| AuthService.StrongPasswordsParse | api/models/user.py:20-31 | every password the strength policy accepts also passes body validation, so a body with a 2-to-25-character username parses to exactly what was sent |
| AuthService.ParsedButWeak | api/services/auth_service.py:61-79 | the converse fails: a two-character password passes body validation and is then refused as weak |
| Decorators.HandleCosmosException | api/utils/decorator.py:14-55 | the caller sees the wrapped result unchanged on success and the same error, re-raised unchanged, on failure |
| Decorators.LogServiceCall | api/utils/decorator.py:57-90 | success passes through; a Cosmos 404 becomes `EntryNotFoundError("Entry not found.")`; any other error, including non-404 Cosmos errors, is re-raised unchanged |
| Decorators.StackedWrappers | api/utils/decorator.py:14-90 | wrapping a call in `handle_cosmos_exception` inside `log_service_call` gives the same outcome as `log_service_call` alone |
| Decorators.StoreErrorsLeak | api/utils/decorator.py:78-88 | a non-404 Cosmos error, and any other Azure error, reaches the caller as the raw store error |
| EntryStore.CreateEntry | api/repositories/cosmos_repository.py:24-26 | creation is an upsert under the document's id: it replaces any document with that id and never reports a duplicate; a faulted call changes nothing |
| EntryStore.GetAllEntries | api/repositories/cosmos_repository.py:28-30 | the listing holds every stored document exactly once, in the store's order |
| EntryStore.GetEntry | api/repositories/cosmos_repository.py:32-34 | a read by id alone returns the document with that id, or fails with status 404 when there is none |
| EntryStore.UpdateEntry | api/repositories/cosmos_repository.py:36-38 | replace changes only the document with that id and keeps the order; 404 when the id is absent |
| EntryStore.DeleteEntry | api/repositories/cosmos_repository.py:43-45 | delete removes exactly that id; 404 when it is absent |
| EntryService.LogServiceCall | api/services/entry_service.py:24-64 | success returns the wrapped value unchanged; a store error becomes `EntryNotFoundError("Entry <subject> not found.")` iff its status is 404, and otherwise `JournalError("An unexpected error occurred")` when it is a Cosmos HTTP error or a `ServiceRequestError`; every other Azure error (a lost response, a client timeout) and every non-store error passes through unchanged |
| EntryService.CreateEntry | api/services/entry_service.py:66-69 | with no fault, the store gains a document under the fresh id with the input's work, struggle and intention, the creation time and `updated_at` = "None"; every other document is unchanged; a fault of a caught class becomes a journal error, and any other Azure error is re-raised unchanged |
| EntryService.GetAllEntries | api/services/entry_service.py:71-77 | corrected listing (`exclude` passed as a set, see Findings): one timestamp-free view per stored document, in store order, with each view's fields taken from its document |
| EntryService.GetAllEntriesAsWritten | api/services/entry_service.py:71-77 | the listing as written: succeeds, with no views, iff the call is unfaulted and the store is empty; for a non-empty store it fails with pydantic's uncaught `TypeError`; a store fault is translated as elsewhere |
| EntryService.ListingAsWrittenFails | api/services/entry_service.py:44-77 | for every good non-empty store the listing as written fails with an error that is not a journal error, while the corrected listing succeeds; on an empty store or a faulted call the two agree |
| EntryService.GetEntry | api/services/entry_service.py:79-82 | the full stored document for that id; `EntryNotFoundError("Entry <id> not found.")` when it is absent |
| EntryService.MergeField | api/services/entry_service.py:89-91 | a stored field is overwritten iff the supplied value has a non-whitespace character; a blank or whitespace-only value keeps the stored one |
| EntryService.Merge | api/services/entry_service.py:89-93 | each text field is merged on its own, `updated_at` is set and the id and `created_at` are kept; the 256-character limits are kept; an all-blank input changes nothing but `updated_at` |
| EntryService.UpdateEntry | api/services/entry_service.py:84-94 | succeeds iff both store calls are unfaulted and the id exists; the one document is replaced by its merge (fields merged, `updated_at` set, id and `created_at` kept), and all other documents and the order are unchanged |
| EntryService.DeleteEntry | api/services/entry_service.py:96-98 | removes exactly that id; `EntryNotFoundError` for an absent id, and the store invariant is kept |
| EntryService.ListingCoversStore | api/services/entry_service.py:72-77 | of the corrected listing: its ids are exactly the stored ids, each once, and no view carries `created_at` or `updated_at` |
| EntryService.CreateThenGet | api/services/entry_service.py:66-82 | a created entry reads back with the input's fields, its creation time and `updated_at` = "None" |
| EntryService.DeleteThenGet | api/services/entry_service.py:79-98 | after a delete, a read of that id fails with `EntryNotFoundError` |
| EntryService.UpdateFailedReadIssuesNoWrite | api/services/entry_service.py:85-94 | when the read fails (missing id or store error), the outcome is an error that does not depend on the write call, so no write is issued |
| EntryService.BlankUpdateOnlyStamps | api/services/entry_service.py:89-93 | an update with three blank fields changes only `updated_at` |
| EntryService.ServiceErrorsAreJournalErrors | api/services/entry_service.py:44-61 | a store error of the two caught classes (Cosmos HTTP errors and `ServiceRequestError`) reaching any of the five operations (with the corrected listing) leaves them only as `EntryNotFoundError` or `JournalError` |
| EntryService.UncaughtStoreErrorsLeak | api/services/entry_service.py:44-61 | an Azure error outside those classes (a `ServiceResponseError`) reaches the callers of all five operations, the update's read and its write alike, as the raw store error |
| MemoryJournal.ApplyUpdate | main.py:54-64 | corrected merge (see Findings): only the fields set to a string are replaced; id and `created_at` never change; `updated_at` is set; the 256-character limits are kept |
| MemoryJournal.CreateEntry | main.py:21-25 | the returned entry carries the input, the fresh id, the creation time and no update time; it is stored under its own id, appended to the order, and no other key changes |
| MemoryJournal.GetEntries | main.py:27-34 | one summary per stored key in insertion order, holding that key and that entry's intention |
| MemoryJournal.GetAnEntry | main.py:36-44 | returns the stored entry iff the id is present, and otherwise the 404 "Journal entry with id <id> not found" |
| MemoryJournal.UpdateEntry | main.py:46-66 | corrected handler (an explicit null keeps the stored value, see Findings): 404 and no change for an unknown id; otherwise the merged entry is returned and stored under the same id in the same position, and the invariant is kept |
| MemoryJournal.DeleteEntry | main.py:68-77 | removes exactly that key and returns the deletion message; 404 for an unknown id; every other entry is unchanged |
| MemoryJournal.SummariesCoverStore | main.py:27-34 | the listing names every stored id exactly once |
| MemoryJournal.CreateThenGet | main.py:21-44 | a created entry reads back unchanged, with no update time |
| MemoryJournal.CreateThenList | main.py:21-34 | creating under a new id appends exactly its summary to the listing and leaves earlier summaries unchanged |
| MemoryJournal.UpdateThenGet | main.py:36-66 | an update reads back as the merged entry; an unknown id fails reading and updating with the same 404 |
| MemoryJournal.DeleteThenGet | main.py:68-77 | after a delete the id is unknown, and the other entries keep their relative order |
| MemoryJournal.Lift | main.py:23-24 | an entry seen as the dict's object keeps its id and timestamps and has all three text fields set |
| MemoryJournal.LiftAll | main.py:13 | the dict of objects has the same keys in the same order, each holding its entry |
| MemoryJournal.SetattrAsWritten | main.py:57-62 | an explicit null is assigned as `None`, a string is assigned, an unset field keeps the attribute |
| MemoryJournal.UpdateObjectAsWritten | main.py:57-64 | the object after the loop as written: a text attribute is `None` iff the body set it to null (or it already was and the body left it out); a string replaces it as `Patched` does; id and `created_at` are kept and `updated_at` set |
| MemoryJournal.AsResponse | main.py:46 | an object passes the `EntryResponse` response model iff each text field is a string of at most 256 characters; then its entry lifts back to the object; the error names exactly the failing fields |
| MemoryJournal.LiftValidates | main.py:46 | an entry within the limits passes response validation unchanged, so `Lift` and `AsResponse` are inverse on such entries |
| MemoryJournal.UpdateEntryAsWritten | main.py:46-66 | the handler as written: 404 for an unknown id; otherwise the stored object is changed in place whatever it holds, and the reply is that object validated against `EntryResponse` |
| MemoryJournal.GetEntriesAsWritten | main.py:27-34 | the listing over objects succeeds iff every stored intention is a string, giving one summary per key in order; otherwise building `EntrySummary` fails on `intention` |
| MemoryJournal.AsWrittenAgreesWithoutNull | main.py:57-62 | for an entry within the limits and a valid update without an explicit null, the loop as written and `ApplyUpdate` produce the same entry |
| MemoryJournal.HandlersAgreeWithoutNull | main.py:27-66 | without an explicit null, the handler as written and `UpdateEntry` give the same reply and the same dict, and the listings after them agree |
| MemoryJournal.ListingsAgree | main.py:27-34 | listing a dict of entries through the as-written objects gives the same summaries as `GetEntries` |
| MemoryJournal.LiftAllPut | main.py:54-62 | storing an entry then seeing the dict as objects equals storing its object |
| MemoryJournal.NullIntentionBreaksEntry | main.py:57-62 | `{"intention": null}` is a valid update; the loop as written stores a null intention that fails the response model, while `ApplyUpdate` keeps the old intention |
| MemoryJournal.NullUpdateBreaksListing | main.py:27-66 | after `{"intention": null}` on a stored id, the handler as written replies with a validation error, the dict keeps `None`, and the listing of that dict fails; the corrected handler replies with the old intention |
| MemoryJournal.NullPersistsUntilRepaired | main.py:27-77 | a `None` intention survives every update as written that does not set that entry's intention, so the listing keeps failing; setting it to a string or deleting the entry, when no other intention is `None`, makes the listing succeed |
| AuthService.Search | api/services/auth_service.py:42-45 | `re.search` with a one-class pattern succeeds iff some character of the password is in that class |
| AuthService.CheckPasswordStrength | api/services/auth_service.py:39-53 | accepts iff the length exceeds 8 and there is a lowercase letter, an uppercase letter, a digit and a character outside `[A-Za-z0-9]`; every rejection is `WeakPassword` with the one fixed message |
| AuthService.GetUser | api/services/auth_service.py:29-37 | the first record of the username query, and `None` iff the query is empty; in a well-keyed store the record has that username |
| AuthService.RegisterUser | api/services/auth_service.py:61-79 | a taken username gives `UserAlreadyExists` whatever the password; a free username with a weak password gives `WeakPassword` and stores nothing; otherwise exactly one record is stored (fresh id, the username, not disabled, `hash(password)`) and the result is `True` |
| AuthService.AuthenticateUser | api/services/auth_service.py:81-87 | succeeds iff the username has a record and the password verifies against its hash, returning that record; every failure is `IncorrectCredentials("Incorrect username or password")` |
| AuthService.GetCurrentUser | api/services/auth_service.py:97-103 | returns the `"sub"` claim unchanged when it is present and not null, raises `IncorrectCredentials` otherwise, and lets a decoding error through untranslated |
| AuthService.AccessTokenClaimsAsWritten | api/services/auth_service.py:89-95 | the payload as written is the given claims plus an `"exp"` of `expireMinutes` days (86,400 seconds each) after now |
| AuthService.AccessTokenClaims | api/services/auth_service.py:89-95 | the signed payload is the given claims plus an `"exp"` of `expireMinutes` minutes after now (the corrected expiry) |
| AuthService.ExpiryCountsDays | api/services/auth_service.py:91 | with a setting of 30, the code as written expires tokens 2,592,000 seconds after issue; the corrected expiry is 1,800 seconds |
| AuthService.ExpiryIs1440Times | api/services/auth_service.py:91 | for every setting, the lifetime as written is 1440 times the corrected one, and the two payloads agree on every other claim |
| AuthService.RegisterThenAuthenticate | api/services/auth_service.py:61-87 | after a successful registration, logging in with the same password returns the record just stored |
| AuthService.TakenBeforeWeak | api/services/auth_service.py:62-67 | a taken username with a weak password yields `UserAlreadyExists`, not `WeakPassword` |
| AuthService.WeakRegistrationLeavesNoAccount | api/services/auth_service.py:64-74 | a weak password for a free username yields `WeakPassword`, and a later login with that username still fails |
| AuthService.RegisterTwice | api/services/auth_service.py:61-79 | a second registration of the same username fails with `UserAlreadyExists`, and the first record is still what the lookup finds |
| AuthService.UnknownUserLikeWrongPassword | api/services/auth_service.py:81-85 | an unknown username and a wrong password give identical errors |
| AuthService.IssuedSubjectResolves | api/services/auth_service.py:89-103 | the subject put into a token's claims is what `get_current_user` returns once those claims are decoded, with either expiry |
| AuthService.EachRuleRejects | api/services/auth_service.py:40-53 | each policy rule on its own (length at most 8, or a missing class) rejects a password |
| AuthService.PolicyExamples | api/services/auth_service.py:40-53 | "Journal#2024" is accepted, and "Journal2024" is rejected for lacking a symbol |

## Left out

- Logging everywhere, and the `log_extra` argument binding beyond choosing the subject of the not-found message.
- EntryService.UpdateEntry: a fault is modelled as leaving the store untouched; a `ServiceResponseError` on the write may in fact follow an applied write, which is not modelled.
- EntryService.GetAllEntries: it is the corrected listing, which passes the excluded fields as a set; the listing as written fails for any non-empty store and is `EntryService.GetAllEntriesAsWritten` (see Findings).
- MemoryJournal.UpdateEntry: it is the corrected handler, in which an explicit `null` keeps the stored value; the handler as written is `MemoryJournal.UpdateEntryAsWritten` (see Findings).
- `EntryService.LogServiceCall`: its subject is the first positional argument after `self`, as the routers call it; the keyword-argument path (`kwargs.get("entry_id") or ...`) is not modelled.
- `EntryService.InputText`: Python's `repr` quoting and escaping of the field values is not modelled.
- Environment loading and the start-up checks (`api/services/auth_service.py:15-21`, `api/repositories/cosmos_repository.py:9-16`): these are configuration, not behaviour.
- The bcrypt calls inside `hash_password`/`verify_password`: they are foreign code. They stand as `Crypto` together with the `Sound` property.
- JWT signing, `jwt.encode`, and the conversion of the naive local `datetime.now()` into a timestamp: these are foreign code and clock. Only the claims are modelled, and the outcome of `jwt.decode` is a parameter.
- The user container (`UserDB`) is not part of this model. Its query is taken to return the records filed under that username, and `register_user` to append one. Its own failures are not modelled.
- `delete_all_entries`: the interface declares it, the service never calls it, and its one implementation does nothing.
- Cosmos system properties on stored documents (`_rid`, `_etag`, ...), and pydantic's re-validation of documents read back: stored documents are typed records.
- The order of `read_all_items`: the service's listing follows the store's insertion order.
- The HTTP routers, `api/main.py`, and `main.py`'s `home` route: these are transport and wiring.
- Request fields of a JSON type other than string or null: a field is absent, null or a string.
- The async execution and concurrency of requests: each operation is one atomic function.
- Timestamps are values supplied by the caller, so "newer than the previous update" is not stated.

## Findings

| source | as written | input that shows it | evidently intended | confidence | as-written member | corrected member |
|---|---|---|---|---|---|---|
| api/services/auth_service.py:91 | `timedelta(TOKEN_EXPIRE_MINUTES)` passes the setting as the first positional argument, which counts days | `TOKEN_EXPIRE_MINUTES=30`: `exp` is 2,592,000 seconds after issue | `exp` 30 minutes (1,800 seconds) after issue, as the setting's name says | high, not executed | AuthService.AccessTokenClaimsAsWritten, AuthService.ExpiryCountsDays, AuthService.ExpiryIs1440Times | AuthService.AccessTokenClaims |
| main.py:57-62 | an explicit `null` in the update body is a set field, so `setattr` stores `None` in a `str` field of the stored entry; the response model then rejects it, and every listing fails building `EntrySummary(intention=None)` until that entry's intention is set to a string again or the entry is deleted | `PUT /entries/{id}` with body `{"intention": null}` | a null field leaves the stored value unchanged, like an omitted one | medium, not executed | MemoryJournal.UpdateEntryAsWritten, MemoryJournal.GetEntriesAsWritten, MemoryJournal.NullUpdateBreaksListing, MemoryJournal.NullPersistsUntilRepaired | MemoryJournal.UpdateEntry, MemoryJournal.ApplyUpdate |
| api/services/entry_service.py:75 | `model_dump(exclude=["created_at", "updated_at"])` passes a list; pydantic's serializer accepts only a set or a dict and raises `TypeError` ("`exclude` argument must be a set or dict."), which `log_service_call` does not catch | any store holding one document, e.g. after one `create_entry`, then `get_all_entries` | `exclude={"created_at", "updated_at"}`: one view per document without the timestamps | medium, not executed | EntryService.GetAllEntriesAsWritten, EntryService.ListingAsWrittenFails | EntryService.GetAllEntries |

=== FILE: auth_service.dfy ===
/** Password policy, registration, login and token-subject resolution
    (`api/services/auth_service.py`). The user store maps a username to the
    records its query returns. bcrypt and the JWT library are parameters:
    `Crypto` stands for hashing and verification, the outcome of
    `jwt.decode` is passed in, and the clock is a number of seconds. */
module AuthService {
  import opened Results
  import opened Errors
  import opened Fields
  import opened UserModels

  // ---- Password strength ----

  const WeakPasswordMessage: string :=
    "Weak password. Password must be more than 8 characters, contain at least "
    + "one lowercase, uppercase letter, number and special character."

  const IncorrectCredentialsMessage: string := "Incorrect username or password"

  /** The four character classes the policy asks for; `Symbol` is the
      regular-expression class `[^A-Za-z0-9]`. */
  datatype CharClass = Lower | Upper | Digit | Symbol

  predicate InClass(c: char, k: CharClass) {
    match k
    case Lower => 'a' <= c <= 'z'
    case Upper => 'A' <= c <= 'Z'
    case Digit => '0' <= c <= '9'
    case Symbol => !('a' <= c <= 'z' || 'A' <= c <= 'Z' || '0' <= c <= '9')
  }

  /** Some character of `s` is in class `k`. */
  ghost predicate Contains(s: string, k: CharClass) {
    exists i :: 0 <= i < |s| && InClass(s[i], k)
  }

  /** The password policy: more than 8 characters and at least one
      character of each class. */
  ghost predicate IsStrong(p: string) {
    |p| > 8 && Contains(p, Lower) && Contains(p, Upper) && Contains(p, Digit) && Contains(p, Symbol)
  }

  /** `re.search` with a one-class pattern: whether some character of `s`
      matches. */
  function Search(s: string, k: CharClass): (found: bool)
    ensures found <==> Contains(s, k)
  {
    if s == [] then false
    else if InClass(s[0], k) then true
    else
      var found := Search(s[1..], k);
      assert Contains(s[1..], k) ==> Contains(s, k) by {
        if Contains(s[1..], k) {
          var i :| 0 <= i < |s| - 1 && InClass(s[1..][i], k);
          assert s[i + 1] == s[1..][i];
        }
      }
      assert Contains(s, k) ==> Contains(s[1..], k) by {
        if Contains(s, k) {
          var i :| 0 <= i < |s| && InClass(s[i], k);
          assert i != 0;
          assert s[1..][i - 1] == s[i];
        }
      }
      found
  }

  /** `check_password_strength`: `True` for a strong password, otherwise
      `WeakPassword` with one fixed message naming every requirement. */
  function CheckPasswordStrength(p: string): (r: Result<bool, Error>)
    ensures r.Ok? <==> IsStrong(p)
    ensures r.Ok? ==> r.value
    ensures r.Err? ==> r.error == WeakPassword(WeakPasswordMessage)
  {
    if |p| > 8 && Search(p, Lower) && Search(p, Upper) && Search(p, Digit) && Search(p, Symbol)
    then Ok(true)
    else Err(WeakPassword(WeakPasswordMessage))
  }

  // ---- Users ----

  /** The user container, seen through its username query. */
  type UserStore = map<string, seq<UserInDB>>

  /** What `db.get_user(username)` returns: the records stored for that
      username, none if there are none. */
  function Query(db: UserStore, username: string): seq<UserInDB> {
    if username in db then db[username] else []
  }

  /** Every record is filed under its own username. */
  ghost predicate Keyed(db: UserStore) {
    forall u, i :: u in db && 0 <= i < |db[u]| ==> db[u][i].user.username == u
  }

  /** bcrypt, abstracted: `hash(password, salt)` and `verify(password,
      hashed)`. */
  datatype Crypto = Crypto(hash: (string, string) -> string, verify: (string, string) -> bool)

  /** The one property of bcrypt the model relies on: a password verifies
      against any hash made from it. */
  ghost predicate Sound(c: Crypto) {
    forall p, salt :: c.verify(p, c.hash(p, salt))
  }

  /** `get_user`: the first record the query returns, or `None`. */
  function GetUser(db: UserStore, username: string): (r: Option<UserInDB>)
    ensures r.None? <==> Query(db, username) == []
    ensures r.Some? ==> r.value == Query(db, username)[0]
    ensures r.Some? && Keyed(db) ==> r.value.user.username == username
  {
    var found := Query(db, username);
    if |found| != 0 then Some(found[0]) else None
  }

  /** `register_user`: a taken username fails before the password is even
      looked at; a weak password then fails without storing anything;
      otherwise one record is stored, holding a fresh id, the username,
      `disabled` false and the hash of the password. `salt` is the output
      of `bcrypt.gensalt`, `freshId` that of `uuid4`. */
  function RegisterUser(db: UserStore, username: string, password: string,
                        c: Crypto, salt: string, freshId: string)
    : (r: Result<(bool, UserStore), Error>)
    ensures Query(db, username) != [] ==>
      r == Err(UserAlreadyExists("Username " + username + " is not available."))
    ensures Query(db, username) == [] && !IsStrong(password) ==>
      r == Err(WeakPassword(WeakPasswordMessage))
    ensures r.Ok? <==> Query(db, username) == [] && IsStrong(password)
    ensures r.Ok? ==> r.value.0
    ensures r.Ok? ==>
      r.value.1 == db[username := [NewUserInDB(freshId, username, c.hash(password, salt))]]
    ensures r.Ok? && Keyed(db) ==> Keyed(r.value.1)
  {
    match GetUser(db, username)
    case Some(_) => Err(UserAlreadyExists("Username " + username + " is not available."))
    case None =>
      match CheckPasswordStrength(password)
      case Err(e) => Err(e)
      case Ok(_) =>
        var record := NewUserInDB(freshId, username, c.hash(password, salt));
        assert Query(db, username) + [record] == [record];
        Ok((true, db[username := Query(db, username) + [record]]))
  }

  /** `authenticate_user`: the first record for the username when the
      password verifies against its hash. An unknown username and a wrong
      password raise the same error. */
  function AuthenticateUser(db: UserStore, username: string, password: string, c: Crypto)
    : (r: Result<UserInDB, Error>)
    ensures r.Ok? <==> Query(db, username) != [] && c.verify(password, Query(db, username)[0].hashedPassword)
    ensures r.Ok? ==> r.value == Query(db, username)[0]
    ensures r.Err? ==> r.error == IncorrectCredentials(IncorrectCredentialsMessage)
  {
    match GetUser(db, username)
    case None => Err(IncorrectCredentials(IncorrectCredentialsMessage))
    case Some(user) =>
      if c.verify(password, user.hashedPassword) then Ok(user)
      else Err(IncorrectCredentials(IncorrectCredentialsMessage))
  }

  // ---- Tokens ----

  /** A JSON value in a token payload. */
  datatype Json = JNull | JString(s: string) | JNumber(n: int) | JBool(b: bool)

  type Claims = map<string, Json>

  /** `get_current_user`: given what `jwt.decode` produced, the `"sub"`
      claim unchanged, or `IncorrectCredentials` when it is missing or
      null. A token `jwt.decode` rejects raises its own error, which is not
      translated. */
  function GetCurrentUser(decoded: Result<Claims, Error>): (r: Result<Json, Error>)
    ensures decoded.Err? ==> r == Err(decoded.error)
    ensures decoded.Ok? ==>
      (r.Ok? <==> "sub" in decoded.value && decoded.value["sub"] != JNull)
    ensures decoded.Ok? && r.Ok? ==> r.value == decoded.value["sub"]
    ensures decoded.Ok? && r.Err? ==> r.error == IncorrectCredentials(IncorrectCredentialsMessage)
  {
    match decoded
    case Err(e) => Err(e)
    case Ok(payload) =>
      var sub := if "sub" in payload then payload["sub"] else JNull;
      if sub == JNull then Err(IncorrectCredentials(IncorrectCredentialsMessage))
      else Ok(sub)
  }

  const SecondsPerMinute: int := 60
  const SecondsPerDay: int := 86400

  /** The payload `create_access_token` signs, as written: `data` plus an
      `"exp"` of `now + timedelta(TOKEN_EXPIRE_MINUTES)`, whose first
      positional argument counts days. */
  function AccessTokenClaimsAsWritten(data: Claims, now: int, expireMinutes: int): (claims: Claims)
    ensures "exp" in claims && claims["exp"].JNumber?
    ensures claims["exp"].n - now == expireMinutes * SecondsPerDay
    ensures forall k :: k in data && k != "exp" ==> k in claims && claims[k] == data[k]
    ensures claims.Keys == data.Keys + {"exp"}
  {
    data["exp" := JNumber(now + expireMinutes * SecondsPerDay)]
  }

  /** The payload with the expiry the setting's name promises:
      `expireMinutes` minutes after `now`. */
  function AccessTokenClaims(data: Claims, now: int, expireMinutes: int): (claims: Claims)
    ensures "exp" in claims && claims["exp"].JNumber?
    ensures claims["exp"].n - now == expireMinutes * SecondsPerMinute
    ensures forall k :: k in data && k != "exp" ==> k in claims && claims[k] == data[k]
    ensures claims.Keys == data.Keys + {"exp"}
  {
    data["exp" := JNumber(now + expireMinutes * SecondsPerMinute)]
  }

  /** The discrepancy: with `TOKEN_EXPIRE_MINUTES=30`, the code as written
      issues tokens valid for 30 days (2,592,000 seconds) instead of 30
      minutes (1,800 seconds). */
  lemma ExpiryCountsDays(data: Claims, now: int)
    ensures AccessTokenClaimsAsWritten(data, now, 30)["exp"] == JNumber(now + 2592000)
    ensures AccessTokenClaims(data, now, 30)["exp"] == JNumber(now + 1800)
  {
  }

  /** For every setting, the token as written lives 1440 times as long as
      the setting's name promises, and the two payloads differ only in
      `"exp"`. */
  lemma ExpiryIs1440Times(data: Claims, now: int, expireMinutes: int)
    ensures AccessTokenClaimsAsWritten(data, now, expireMinutes)["exp"].n - now
         == 1440 * (AccessTokenClaims(data, now, expireMinutes)["exp"].n - now)
    ensures forall k :: k in data && k != "exp" ==>
      AccessTokenClaimsAsWritten(data, now, expireMinutes)[k] == AccessTokenClaims(data, now, expireMinutes)[k]
  {
  }

  // ---- Registration body and policy ----

  /** Every password the strength policy accepts also passes `CreateUser`
      body validation, so with a username of 2 to 25 characters the body
      parses to exactly what was sent. */
  lemma StrongPasswordsParse(username: string, password: string)
    requires MinUsernameLength <= |username| <= MaxUsernameLength
    requires IsStrong(password)
    ensures ParseCreateUser(Text(username), Text(password)) == Ok(CreateUser(username, password))
  {
  }

  /** The converse fails: a body validation accepts can still be refused by
      the strength check. */
  lemma ParsedButWeak()
    ensures ParseCreateUser(Text("ab"), Text("ab")) == Ok(CreateUser("ab", "ab"))
    ensures CheckPasswordStrength("ab") == Err(WeakPassword(WeakPasswordMessage))
  {
  }

  // ---- Flows ----

  /** A successful registration can be followed by a login with the same
      password, which yields the record just stored. */
  lemma RegisterThenAuthenticate(db: UserStore, username: string, password: string,
                                 c: Crypto, salt: string, freshId: string)
    requires Sound(c)
    requires RegisterUser(db, username, password, c, salt, freshId).Ok?
    ensures var db' := RegisterUser(db, username, password, c, salt, freshId).value.1;
      AuthenticateUser(db', username, password, c)
        == Ok(NewUserInDB(freshId, username, c.hash(password, salt)))
  {
  }

  /** A taken username is reported as taken whatever the password, weak
      ones included, and the store is left as it was. */
  lemma TakenBeforeWeak(db: UserStore, username: string, password: string,
                        c: Crypto, salt: string, freshId: string)
    requires Query(db, username) != []
    requires !IsStrong(password)
    ensures RegisterUser(db, username, password, c, salt, freshId).Err?
    ensures RegisterUser(db, username, password, c, salt, freshId).error.UserAlreadyExists?
  {
  }

  /** A rejected registration for a free username leaves no account: a
      login with that username still fails. */
  lemma WeakRegistrationLeavesNoAccount(db: UserStore, username: string, password: string,
                                        c: Crypto, salt: string, freshId: string)
    requires Query(db, username) == [] && !IsStrong(password)
    ensures RegisterUser(db, username, password, c, salt, freshId)
         == Err(WeakPassword(WeakPasswordMessage))
    ensures AuthenticateUser(db, username, password, c)
         == Err(IncorrectCredentials(IncorrectCredentialsMessage))
  {
  }

  /** Registering a username twice fails the second time, and the first
      record is what a login still finds. */
  lemma RegisterTwice(db: UserStore, username: string, p1: string, p2: string,
                      c: Crypto, s1: string, s2: string, id1: string, id2: string)
    requires RegisterUser(db, username, p1, c, s1, id1).Ok?
    ensures var db' := RegisterUser(db, username, p1, c, s1, id1).value.1;
      && RegisterUser(db', username, p2, c, s2, id2)
           == Err(UserAlreadyExists("Username " + username + " is not available."))
      && GetUser(db', username) == Some(NewUserInDB(id1, username, c.hash(p1, s1)))
  {
  }

  /** An unknown username and a wrong password are indistinguishable to
      the caller. */
  lemma UnknownUserLikeWrongPassword(db: UserStore, unknown: string, known: string,
                                     p: string, q: string, c: Crypto)
    requires Query(db, unknown) == []
    requires Query(db, known) != [] && !c.verify(q, Query(db, known)[0].hashedPassword)
    ensures AuthenticateUser(db, unknown, p, c) == AuthenticateUser(db, known, q, c)
  {
  }

  /** The subject a login puts in a token is what `get_current_user`
      returns once the token decodes to the payload it was signed with. */
  lemma IssuedSubjectResolves(userId: string, now: int, expireMinutes: int)
    ensures GetCurrentUser(Ok(AccessTokenClaims(map["sub" := JString(userId)], now, expireMinutes)))
         == Ok(JString(userId))
    ensures GetCurrentUser(Ok(AccessTokenClaimsAsWritten(map["sub" := JString(userId)], now, expireMinutes)))
         == Ok(JString(userId))
  {
  }

  /** Each rule of the policy on its own rejects a password. */
  lemma EachRuleRejects(p: string)
    ensures |p| <= 8 ==> CheckPasswordStrength(p).Err?
    ensures !Contains(p, Lower) ==> CheckPasswordStrength(p).Err?
    ensures !Contains(p, Upper) ==> CheckPasswordStrength(p).Err?
    ensures !Contains(p, Digit) ==> CheckPasswordStrength(p).Err?
    ensures !Contains(p, Symbol) ==> CheckPasswordStrength(p).Err?
  {
  }

  /** Two concrete passwords: one accepted, one rejected for lacking a
      symbol. */
  lemma PolicyExamples()
    ensures CheckPasswordStrength("Journal#2024") == Ok(true)
    ensures CheckPasswordStrength("Journal2024") == Err(WeakPassword(WeakPasswordMessage))
  {
    var good := "Journal#2024";
    assert InClass(good[0], Upper) && InClass(good[1], Lower);
    assert InClass(good[7], Symbol) && InClass(good[8], Digit);
    var weak := "Journal2024";
    assert forall i :: 0 <= i < |weak| ==> !InClass(weak[i], Symbol);
  }
}

=== FILE: decorators.dfy ===
/** The error-translating wrappers of `api/utils/decorator.py`, as functions
    from the wrapped call's outcome to the outcome the caller sees. Their
    logging is not modelled. */
module Decorators {
  import opened Results
  import opened Errors

  const EntryNotFoundMessage: string := "Entry not found."

  /** A Cosmos exception with status 404, raised by the wrapped call. */
  predicate RaisedNotFound<T>(r: Result<T, Error>) {
    r.Err? && r.error.Store? && IsNotFound(r.error.cause)
  }

  /** `handle_cosmos_exception`: logs a Cosmos error and raises it again;
      the caller sees exactly what the wrapped call produced. */
  function HandleCosmosException<T>(r: Result<T, Error>): (o: Result<T, Error>)
    ensures o.Ok? <==> r.Ok?
    ensures r.Ok? ==> o.value == r.value
    ensures r.Err? ==> o.error == r.error
  {
    match r
    case Ok(v) => Ok(v)
    case Err(e) => Err(e)
  }

  /** `log_service_call`: a Cosmos 404 becomes `EntryNotFoundError`; every
      other outcome, other Cosmos errors included, passes through. */
  function LogServiceCall<T>(r: Result<T, Error>): (o: Result<T, Error>)
    ensures o.Ok? <==> r.Ok?
    ensures r.Ok? ==> o.value == r.value
    ensures RaisedNotFound(r) ==> o.error == EntryNotFoundError(EntryNotFoundMessage)
    ensures r.Err? && !RaisedNotFound(r) ==> o.error == r.error
  {
    match r
    case Ok(v) => Ok(v)
    case Err(e) =>
      if e.Store? && IsNotFound(e.cause) then Err(EntryNotFoundError(EntryNotFoundMessage))
      else Err(e)
  }

  /** Wrapping a call in `handle_cosmos_exception` inside
      `log_service_call` gives the same outcome as `log_service_call`
      alone. */
  lemma StackedWrappers<T>(r: Result<T, Error>)
    ensures LogServiceCall(HandleCosmosException(r)) == LogServiceCall(r)
  {
  }

  /** A non-404 Cosmos error, and any other Azure error, reaches the caller
      as the raw store error: this wrapper does not hide store details. */
  lemma StoreErrorsLeak<T>(e: StoreError)
    requires !IsNotFound(e)
    ensures LogServiceCall<T>(Err(Store(e))) == Err(Store(e))
  {
  }
}

=== FILE: entry_models.dfy ===
/** The record shapes of the in-memory journal (`models/entry.py`). */
module EntryModels {
  import opened Results
  import opened Errors
  import opened Fields

  /** The `max_length` of every entry text field. */
  const MaxTextLength: nat := 256

  /** A UTC instant (`datetime.now(timezone.utc)`), supplied by the caller. */
  type Instant = int

  datatype EntryCreate = EntryCreate(intention: string, work: string, struggle: string)

  /** `EntryCreate` plus an id, a creation time and the last update time. */
  datatype EntryResponse = EntryResponse(
    intention: string, work: string, struggle: string,
    id: string, createdAt: Instant, updatedAt: Option<Instant>)

  /** The listing view: an id and the intention, nothing else. */
  datatype EntrySummary = EntrySummary(id: string, intention: string)

  /** A validated update body; a field's `Absent` means "not set". */
  datatype EntryUpdate = EntryUpdate(intention: Field, work: Field, struggle: Field)

  predicate Fits(s: string) {
    |s| <= MaxTextLength
  }

  /** The constraints `EntryResponse` inherits from `EntryCreate`. */
  predicate WithinLimits(e: EntryResponse) {
    Fits(e.intention) && Fits(e.work) && Fits(e.struggle)
  }

  /** What `EntryCreate` validation guarantees. */
  predicate ValidCreate(c: EntryCreate) {
    Fits(c.intention) && Fits(c.work) && Fits(c.struggle)
  }

  /** What `EntryUpdate` validation guarantees of each field. */
  predicate ValidUpdate(u: EntryUpdate) {
    && OptionalText(u.intention, MaxTextLength)
    && OptionalText(u.work, MaxTextLength)
    && OptionalText(u.struggle, MaxTextLength)
  }

  /** Pydantic parsing of an `EntryCreate` body: each field is required and
      a string of at most 256 characters; the error names every field that
      is not. */
  function ParseEntryCreate(intention: Field, work: Field, struggle: Field): (r: Result<EntryCreate, Error>)
    ensures r.Ok? <==>
      && RequiredText(intention, 0, MaxTextLength)
      && RequiredText(work, 0, MaxTextLength)
      && RequiredText(struggle, 0, MaxTextLength)
    ensures r.Ok? ==>
      r.value == EntryCreate(intention.value, work.value, struggle.value)
    ensures r.Ok? ==> ValidCreate(r.value)
    ensures r.Err? ==> r.error.ValidationError?
    ensures r.Err? ==>
      && ("intention" in r.error.fields <==> !RequiredText(intention, 0, MaxTextLength))
      && ("work" in r.error.fields <==> !RequiredText(work, 0, MaxTextLength))
      && ("struggle" in r.error.fields <==> !RequiredText(struggle, 0, MaxTextLength))
  {
    var bad :=
      Flag("intention", RequiredText(intention, 0, MaxTextLength))
      + Flag("work", RequiredText(work, 0, MaxTextLength))
      + Flag("struggle", RequiredText(struggle, 0, MaxTextLength));
    if bad == {} then Ok(EntryCreate(intention.value, work.value, struggle.value))
    else Err(ValidationError(bad))
  }

  /** Pydantic parsing of an `EntryUpdate` body: every field is optional
      (absent by default, `null` allowed) and at most 256 characters when
      it is a string. */
  function ParseEntryUpdate(intention: Field, work: Field, struggle: Field): (r: Result<EntryUpdate, Error>)
    ensures r.Ok? <==>
      && OptionalText(intention, MaxTextLength)
      && OptionalText(work, MaxTextLength)
      && OptionalText(struggle, MaxTextLength)
    ensures r.Ok? ==> r.value == EntryUpdate(intention, work, struggle) && ValidUpdate(r.value)
    ensures r.Err? ==> r.error.ValidationError?
    ensures r.Err? ==>
      && ("intention" in r.error.fields <==> !OptionalText(intention, MaxTextLength))
      && ("work" in r.error.fields <==> !OptionalText(work, MaxTextLength))
      && ("struggle" in r.error.fields <==> !OptionalText(struggle, MaxTextLength))
  {
    var bad :=
      Flag("intention", OptionalText(intention, MaxTextLength))
      + Flag("work", OptionalText(work, MaxTextLength))
      + Flag("struggle", OptionalText(struggle, MaxTextLength));
    if bad == {} then Ok(EntryUpdate(intention, work, struggle))
    else Err(ValidationError(bad))
  }

  /** `EntryResponse(**data.model_dump())` with the id and the clock the
      default factories would produce. */
  function NewResponse(data: EntryCreate, freshId: string, now: Instant): (r: EntryResponse)
    ensures r.intention == data.intention && r.work == data.work && r.struggle == data.struggle
    ensures r.id == freshId && r.createdAt == now
    ensures r.updatedAt == None
    ensures ValidCreate(data) ==> WithinLimits(r)
  {
    EntryResponse(data.intention, data.work, data.struggle, freshId, now, None)
  }
}

=== FILE: entry_service.dfy ===
/** The store-backed journal service (`api/services/entry_service.py`).
    Each operation runs one or two store calls inside the service's own
    `log_service_call` wrapper, which turns store errors into the journal
    errors of `api/exceptions.py`. Entries are addressed by id alone: no
    operation takes or checks an owner. */
module EntryService {
  import opened Results
  import opened Errors
  import opened OrderedMaps
  import opened Text
  import opened JournalModels
  import Store = EntryStore

  type Docs = Store.Docs
  type Fault = Store.Fault

  const UnexpectedMessage: string := "An unexpected error occurred"

  /** `str(log_extra)` when the wrapper finds no argument to log. */
  const NoSubject: string := "None"

  /** The message of the `EntryNotFoundError` raised for `subject`, the
      first argument after `self` rendered as text. */
  function NotFoundMessage(subject: string): string {
    "Entry " + subject + " not found."
  }

  /** `str(entry_data)` for an `InputEntry`, as pydantic renders a model.
      Python's choice of quote character and escaping is not modelled. */
  function InputText(i: InputEntry): string {
    "work='" + i.work + "' struggle='" + i.struggle + "' intention='" + i.intention + "'"
  }

  /** The store errors `log_service_call` catches: Cosmos HTTP errors and
      `ServiceRequestError`. */
  predicate Caught(e: StoreError) {
    e.CosmosHttpError? || e.ServiceRequestError?
  }

  /** `log_service_call`: the wrapped call's value on success; a store 404
      becomes `EntryNotFoundError`; any other Cosmos error, and a request
      that never reached the database, becomes the generic `JournalError`;
      every other error, other Azure errors included, passes through. */
  function LogServiceCall<T>(subject: string, r: Result<T, Error>): (o: Result<T, Error>)
    ensures o.Ok? <==> r.Ok?
    ensures r.Ok? ==> o.value == r.value
    ensures r.Err? && !r.error.Store? ==> o.error == r.error
    ensures r.Err? && r.error.Store? ==> (IsJournalError(o.error) <==> Caught(r.error.cause))
    ensures r.Err? && r.error.Store? && !Caught(r.error.cause) ==> o.error == r.error
    ensures r.Err? && r.error.Store? ==>
      (o.error.EntryNotFoundError? <==> IsNotFound(r.error.cause))
    ensures r.Err? && r.error.Store? && IsNotFound(r.error.cause) ==>
      o.error == EntryNotFoundError(NotFoundMessage(subject))
    ensures r.Err? && r.error.Store? && Caught(r.error.cause) && !IsNotFound(r.error.cause) ==>
      o.error == JournalError(UnexpectedMessage)
  {
    match r
    case Ok(v) => Ok(v)
    case Err(Store(e)) =>
      if IsNotFound(e) then Err(EntryNotFoundError(NotFoundMessage(subject)))
      else if Caught(e) then Err(JournalError(UnexpectedMessage))
      else Err(Store(e))
    case Err(e) => Err(e)
  }

  /** The error a store error reaches the caller as: a journal error when
      it is caught, the store error itself when it is not. */
  function Translated(subject: string, e: StoreError): Error {
    if IsNotFound(e) then EntryNotFoundError(NotFoundMessage(subject))
    else if Caught(e) then JournalError(UnexpectedMessage)
    else Store(e)
  }

  /** Every stored entry is within the input length limits. */
  ghost predicate AllWithinLimits(d: Docs) {
    forall k :: k in d.items ==> WithinLimits(d.items[k])
  }

  /** The service's store invariant. */
  ghost predicate Good(d: Docs) {
    Store.Consistent(d) && AllWithinLimits(d)
  }

  /** `create_entry`: stores the input under a fresh id with its creation
      time and `updated_at` set to the string "None". */
  function CreateEntry(d: Docs, input: InputEntry, freshId: string, nowIso: string, f: Fault)
    : (r: Result<Docs, Error>)
    requires Store.Consistent(d)
    ensures r.Ok? <==> f.None?
    ensures r.Err? ==> r.error == Translated(InputText(input), f.value)
    ensures r.Ok? ==> freshId in r.value.items
    ensures r.Ok? ==>
      var e := r.value.items[freshId];
      && e.work == input.work && e.struggle == input.struggle && e.intention == input.intention
      && e.id == freshId && e.createdAt == Some(nowIso) && e.updatedAt == Some(NeverUpdated)
    ensures r.Ok? ==> forall k :: k in d.items && k != freshId ==>
      k in r.value.items && r.value.items[k] == d.items[k]
    ensures r.Ok? ==> r.value.items.Keys == d.items.Keys + {freshId}
    ensures r.Ok? ==> Store.Consistent(r.value)
    ensures r.Ok? && Good(d) && ValidInput(input) ==> Good(r.value)
  {
    var doc := Enrich(input, freshId, nowIso);
    LogServiceCall(InputText(input), FromStore(Store.CreateEntry(d, doc, f)))
  }

  /** `get_all_entries` corrected: every stored entry without its
      timestamps, in the store's order, with the excluded fields passed as
      a set. */
  function GetAllEntries(d: Docs, f: Fault): (r: Result<seq<EntryView>, Error>)
    requires Store.Consistent(d)
    ensures r.Ok? <==> f.None?
    ensures r.Err? ==> r.error == Translated(NoSubject, f.value)
    ensures r.Ok? ==> |r.value| == |d.keys|
    ensures r.Ok? ==> forall i :: 0 <= i < |r.value| ==> r.value[i] == View(d.items[d.keys[i]])
  {
    var listed :=
      match Store.GetAllEntries(d, f)
      case Ok(docs) => Ok(seq(|docs|, i requires 0 <= i < |docs| => View(docs[i])))
      case Err(e) => Err(Store(e));
    LogServiceCall(NoSubject, listed)
  }

  /** The message pydantic's serializer raises when `exclude` is neither a
      set nor a dict. */
  const ExcludeTypeMessage: string := "`exclude` argument must be a set or dict."

  /** `get_all_entries` as written: `model_dump(exclude=[...])` is given a
      list, which pydantic refuses with a `TypeError` for the first
      document; `log_service_call` does not catch it. Only an empty store
      lists successfully. */
  function GetAllEntriesAsWritten(d: Docs, f: Fault): (r: Result<seq<EntryView>, Error>)
    requires Store.Consistent(d)
    ensures r.Ok? <==> f.None? && d.items == map[]
    ensures r.Ok? ==> r.value == []
    ensures r.Err? && f.Some? ==> r.error == Translated(NoSubject, f.value)
    ensures f.None? && d.items != map[] ==> r == Err(TypeError(ExcludeTypeMessage))
  {
    EmptyIffNoKeys(d);
    var listed :=
      match Store.GetAllEntries(d, f)
      case Ok(docs) => if docs == [] then Ok([]) else Err(TypeError(ExcludeTypeMessage))
      case Err(e) => Err(Store(e));
    LogServiceCall(NoSubject, listed)
  }

  /** `get_entry`: the full stored entry with that id. */
  function GetEntry(d: Docs, id: string, f: Fault): (r: Result<EnrichedEntry, Error>)
    ensures r.Ok? <==> f.None? && id in d.items
    ensures r.Ok? ==> r.value == d.items[id]
    ensures f.Some? ==> r == Err(Translated(id, f.value))
    ensures f.None? && id !in d.items ==> r == Err(EntryNotFoundError(NotFoundMessage(id)))
  {
    LogServiceCall(id, FromStore(Store.GetEntry(d, id, f)))
  }

  /** The stored field after a merge: replaced by `given` unless `given`
      is empty or whitespace (`given.strip()` is falsy). */
  function MergeField(stored: string, given: string): (r: string)
    ensures AllSpace(given) ==> r == stored
    ensures !AllSpace(given) ==> r == given
  {
    if IsBlank(given) then stored else given
  }

  /** The entry `update_entry` writes back: each text field merged, the
      update time set, every other field as it was. */
  function Merge(e: EnrichedEntry, input: InputEntry, nowIso: string): (m: EnrichedEntry)
    ensures m.work == MergeField(e.work, input.work)
    ensures m.struggle == MergeField(e.struggle, input.struggle)
    ensures m.intention == MergeField(e.intention, input.intention)
    ensures m.updatedAt == Some(nowIso)
    ensures m.id == e.id && m.createdAt == e.createdAt
    ensures WithinLimits(e) && ValidInput(input) ==> WithinLimits(m)
    ensures AllSpace(input.work) && AllSpace(input.struggle) && AllSpace(input.intention) ==>
      m == e.(updatedAt := Some(nowIso))
  {
    e.(work := MergeField(e.work, input.work),
       struggle := MergeField(e.struggle, input.struggle),
       intention := MergeField(e.intention, input.intention),
       updatedAt := Some(nowIso))
  }

  /** `update_entry`: reads the entry, merges the input into it and writes
      it back. The read and the write are separate store calls, each with
      its own fault. */
  function UpdateEntry(d: Docs, id: string, input: InputEntry, nowIso: string,
                       readFault: Fault, writeFault: Fault): (r: Result<Docs, Error>)
    requires Store.Consistent(d)
    ensures r.Ok? <==> readFault.None? && id in d.items && writeFault.None?
    ensures readFault.Some? ==> r == Err(Translated(id, readFault.value))
    ensures readFault.None? && id !in d.items ==> r == Err(EntryNotFoundError(NotFoundMessage(id)))
    ensures readFault.None? && id in d.items && writeFault.Some? ==>
      r == Err(Translated(id, writeFault.value))
    ensures r.Ok? ==> r.value.keys == d.keys
    ensures r.Ok? ==> r.value.items == d.items[id := Merge(d.items[id], input, nowIso)]
    ensures r.Ok? ==> Store.Consistent(r.value)
    ensures r.Ok? && Good(d) && ValidInput(input) ==> Good(r.value)
  {
    var outcome :=
      match Store.GetEntry(d, id, readFault)
      case Err(e) => Err(Store(e))
      case Ok(entry) => FromStore(Store.UpdateEntry(d, id, Merge(entry, input, nowIso), writeFault));
    LogServiceCall(id, outcome)
  }

  /** `delete_entry`: removes the entry with that id. */
  function DeleteEntry(d: Docs, id: string, f: Fault): (r: Result<Docs, Error>)
    requires Store.Consistent(d)
    ensures r.Ok? <==> f.None? && id in d.items
    ensures f.Some? ==> r == Err(Translated(id, f.value))
    ensures f.None? && id !in d.items ==> r == Err(EntryNotFoundError(NotFoundMessage(id)))
    ensures r.Ok? ==> Store.Consistent(r.value) && r.value.items == d.items - {id}
    ensures r.Ok? && Good(d) ==> Good(r.value)
  {
    LogServiceCall(id, FromStore(Store.DeleteEntry(d, id, f)))
  }

  /** The listing has one view per stored entry: its ids are exactly the
      stored ids, each appearing once, and no view carries a timestamp
      (`EntryView` has no field for one). */
  lemma ListingCoversStore(d: Docs)
    requires Good(d)
    ensures GetAllEntries(d, None).Ok?
    ensures var v := GetAllEntries(d, None).value;
      && (set i | 0 <= i < |v| :: v[i].id) == d.items.Keys
      && forall i, j :: 0 <= i < j < |v| ==> v[i].id != v[j].id
  {
  }

  /** The listing as written fails for every store holding a document,
      with an error that is not a journal error; it agrees with the
      corrected listing on an empty store and on a faulted call. */
  lemma ListingAsWrittenFails(d: Docs, f: Fault)
    requires Good(d)
    ensures f.None? && d.items != map[] ==>
      && GetAllEntriesAsWritten(d, f) == Err(TypeError(ExcludeTypeMessage))
      && !IsJournalError(GetAllEntriesAsWritten(d, f).error)
      && GetAllEntries(d, f).Ok?
    ensures f.Some? || d.items == map[] ==> GetAllEntriesAsWritten(d, f) == GetAllEntries(d, f)
  {
    EmptyIffNoKeys(d);
  }

  /** A created entry reads back with the input's text, its creation time
      and `updated_at` the string "None". */
  lemma CreateThenGet(d: Docs, input: InputEntry, freshId: string, nowIso: string)
    requires Good(d)
    ensures CreateEntry(d, input, freshId, nowIso, None).Ok?
    ensures GetEntry(CreateEntry(d, input, freshId, nowIso, None).value, freshId, None)
      == Ok(EnrichedEntry(input.work, input.struggle, input.intention,
                          freshId, Some(nowIso), Some(NeverUpdated)))
  {
  }

  /** After a delete, reading the same id fails with `EntryNotFoundError`. */
  lemma DeleteThenGet(d: Docs, id: string)
    requires Good(d) && id in d.items
    ensures DeleteEntry(d, id, None).Ok?
    ensures GetEntry(DeleteEntry(d, id, None).value, id, None)
      == Err(EntryNotFoundError(NotFoundMessage(id)))
  {
  }

  /** When the read fails (a missing id or a store error), `update_entry`
      never issues its write: the outcome does not depend on what the
      write call would have done. */
  lemma UpdateFailedReadIssuesNoWrite(d: Docs, id: string, input: InputEntry, nowIso: string,
                                      readFault: Fault, w1: Fault, w2: Fault)
    requires Good(d)
    requires readFault.Some? || id !in d.items
    ensures UpdateEntry(d, id, input, nowIso, readFault, w1).Err?
    ensures UpdateEntry(d, id, input, nowIso, readFault, w1)
         == UpdateEntry(d, id, input, nowIso, readFault, w2)
  {
  }

  /** An update whose three fields are all empty or whitespace changes
      nothing but the update time. */
  lemma BlankUpdateOnlyStamps(d: Docs, id: string, input: InputEntry, nowIso: string)
    requires Good(d) && id in d.items
    requires AllSpace(input.work) && AllSpace(input.struggle) && AllSpace(input.intention)
    ensures UpdateEntry(d, id, input, nowIso, None, None)
         == Ok(Put(d, id, d.items[id].(updatedAt := Some(nowIso))))
  {
  }

  /** A store error the wrapper catches reaches callers of the service only
      as one of the two journal errors, never as the raw store error. */
  lemma ServiceErrorsAreJournalErrors(d: Docs, id: string, input: InputEntry, freshId: string,
                                      nowIso: string, f: Fault, g: Fault)
    requires Good(d)
    requires f.None? || Caught(f.value)
    requires g.None? || Caught(g.value)
    ensures CreateEntry(d, input, freshId, nowIso, f).Err? ==>
      IsJournalError(CreateEntry(d, input, freshId, nowIso, f).error)
    ensures GetAllEntries(d, f).Err? ==> IsJournalError(GetAllEntries(d, f).error)
    ensures GetEntry(d, id, f).Err? ==> IsJournalError(GetEntry(d, id, f).error)
    ensures UpdateEntry(d, id, input, nowIso, f, g).Err? ==>
      IsJournalError(UpdateEntry(d, id, input, nowIso, f, g).error)
    ensures DeleteEntry(d, id, f).Err? ==> IsJournalError(DeleteEntry(d, id, f).error)
  {
  }

  /** An Azure error outside the caught classes, such as a lost response,
      reaches callers of every operation as the raw store error. */
  lemma UncaughtStoreErrorsLeak(d: Docs, id: string, input: InputEntry, freshId: string,
                                nowIso: string, g: Fault)
    requires Good(d)
    ensures CreateEntry(d, input, freshId, nowIso, Some(ServiceResponseError)) == Err(Store(ServiceResponseError))
    ensures GetAllEntries(d, Some(ServiceResponseError)) == Err(Store(ServiceResponseError))
    ensures GetEntry(d, id, Some(ServiceResponseError)) == Err(Store(ServiceResponseError))
    ensures UpdateEntry(d, id, input, nowIso, Some(ServiceResponseError), g) == Err(Store(ServiceResponseError))
    ensures DeleteEntry(d, id, Some(ServiceResponseError)) == Err(Store(ServiceResponseError))
    ensures id in d.items ==>
      UpdateEntry(d, id, input, nowIso, None, Some(ServiceResponseError)) == Err(Store(ServiceResponseError))
  {
  }
}

=== FILE: entry_store.dfy ===
/** The entry store the service talks to: the operations of
    `DatabaseInterface` (`api/repositories/interface_repository.py`) with
    the behaviour of a Cosmos container keyed by entry id. The store keeps
    its documents in an insertion-ordered map. Every call takes a `Fault`:
    what the connection or the server does to that one call. */
module EntryStore {
  import opened Results
  import opened Errors
  import opened OrderedMaps
  import opened JournalModels

  /** `None` when the call reaches the database and is served normally;
      `Some(e)` when it fails with `e` (throttling, a server error, a
      request that never arrived, a lost response, ...); a failed call
      changes no document. */
  type Fault = Option<StoreError>

  type Docs = OrderedMap<EnrichedEntry>

  /** Every document is stored under its own id. */
  ghost predicate Consistent(d: Docs) {
    && Valid(d)
    && forall k :: k in d.items ==> d.items[k].id == k
  }

  /** The error a Cosmos container raises for a missing item. */
  const Missing: StoreError := CosmosHttpError(NotFoundStatus)

  /** `create_entry`: an upsert keyed by the document's id. There is no
      duplicate detection; a document with the same id is replaced. */
  function CreateEntry(d: Docs, doc: EnrichedEntry, f: Fault): (r: Result<Docs, StoreError>)
    requires Consistent(d)
    ensures r.Ok? <==> f.None?
    ensures r.Err? ==> r.error == f.value
    ensures r.Ok? ==> Consistent(r.value) && r.value.items == d.items[doc.id := doc]
  {
    if f.Some? then Err(f.value) else Ok(Put(d, doc.id, doc))
  }

  /** `get_all_entries`: every document, in the store's order. */
  function GetAllEntries(d: Docs, f: Fault): (r: Result<seq<EnrichedEntry>, StoreError>)
    requires Consistent(d)
    ensures r.Ok? <==> f.None?
    ensures r.Err? ==> r.error == f.value
    ensures r.Ok? ==> |r.value| == |d.keys|
    ensures r.Ok? ==> forall i :: 0 <= i < |r.value| ==> r.value[i] == d.items[d.keys[i]]
  {
    if f.Some? then Err(f.value) else Ok(Values(d))
  }

  /** `get_entry`: the document with that id, looked up by id alone (the id
      is also the partition key); 404 when there is none. */
  function GetEntry(d: Docs, id: string, f: Fault): (r: Result<EnrichedEntry, StoreError>)
    ensures r.Ok? <==> f.None? && id in d.items
    ensures r.Ok? ==> r.value == d.items[id]
    ensures f.Some? ==> r == Err(f.value)
    ensures f.None? && id !in d.items ==> r == Err(Missing)
  {
    if f.Some? then Err(f.value)
    else if id in d.items then Ok(d.items[id])
    else Err(Missing)
  }

  /** `update_entry`: replaces the document with that id; 404 when there is
      none. */
  function UpdateEntry(d: Docs, id: string, doc: EnrichedEntry, f: Fault): (r: Result<Docs, StoreError>)
    requires Consistent(d)
    ensures r.Ok? <==> f.None? && id in d.items
    ensures f.Some? ==> r == Err(f.value)
    ensures f.None? && id !in d.items ==> r == Err(Missing)
    ensures r.Ok? ==> r.value.items == d.items[id := doc] && r.value.keys == d.keys
    ensures r.Ok? && doc.id == id ==> Consistent(r.value)
  {
    if f.Some? then Err(f.value)
    else if id in d.items then Ok(Put(d, id, doc))
    else Err(Missing)
  }

  /** `delete_entry`: removes the document with that id; 404 when there is
      none. */
  function DeleteEntry(d: Docs, id: string, f: Fault): (r: Result<Docs, StoreError>)
    requires Consistent(d)
    ensures r.Ok? <==> f.None? && id in d.items
    ensures f.Some? ==> r == Err(f.value)
    ensures f.None? && id !in d.items ==> r == Err(Missing)
    ensures r.Ok? ==> Consistent(r.value) && r.value.items == d.items - {id}
  {
    if f.Some? then Err(f.value)
    else if id in d.items then Ok(Remove(d, id))
    else Err(Missing)
  }
}

=== FILE: errors.dfy ===
/** The exceptions the journal API raises or lets through: the store's own
    errors, the domain errors of `api/exceptions.py`, the authentication
    errors, FastAPI's `HTTPException` and pydantic's validation error. */
module Errors {
  import opened Results

  /** The HTTP status a store uses for a missing item. */
  const NotFoundStatus: int := 404

  /** Exceptions an Azure store call can raise. */
  datatype StoreError =
      /** `CosmosHttpResponseError` with its status code; the SDK's
          `CosmosResourceNotFoundError` is the case whose status is 404. */
    | CosmosHttpError(status: int)
      /** `ServiceRequestError`: the request never reached the database. */
    | ServiceRequestError
      /** An Azure error outside both classes above, such as azure-core's
          `ServiceResponseError` (the request was sent but its response was
          lost) or azure-cosmos's `CosmosClientTimeoutError`. */
    | ServiceResponseError

  predicate IsNotFound(e: StoreError) {
    e.CosmosHttpError? && e.status == NotFoundStatus
  }

  datatype Error =
    | EntryNotFoundError(message: string)
    | JournalError(message: string)
    | IncorrectCredentials(message: string)
    | UserAlreadyExists(message: string)
    | WeakPassword(message: string)
      /** A store exception propagating unchanged. */
    | Store(cause: StoreError)
      /** FastAPI's `HTTPException`. */
    | HttpError(status: int, detail: string)
      /** Pydantic rejected the named fields of a request or record. */
    | ValidationError(fields: set<string>)
      /** A Python `TypeError` raised inside library code and not caught. */
    | TypeError(message: string)
      /** `jwt.decode` rejected the token (bad signature, expired, malformed). */
    | TokenError

  /** The two errors of `api/exceptions.py`: all a client of the entry
      service is meant to see. */
  predicate IsJournalError(e: Error) {
    e.EntryNotFoundError? || e.JournalError?
  }

  /** A store call seen as a call that may raise any `Error`. */
  function FromStore<T>(r: Result<T, StoreError>): (o: Result<T, Error>)
    ensures o.Ok? <==> r.Ok?
    ensures r.Ok? ==> o.value == r.value
    ensures r.Err? ==> o.error == Store(r.error)
  {
    match r
    case Ok(v) => Ok(v)
    case Err(e) => Err(Store(e))
  }
}

=== FILE: fields.dfy ===
/** Request-body fields as pydantic receives them, and the checks its
    `Field(...)` declarations make. */
module Fields {

  /** One field of a JSON body: left out, explicitly `null`, or a string. */
  datatype Field = Absent | Null | Text(value: string)

  /** A required `str` field (`Field(...)`) whose length lies in `lo..hi`. */
  predicate RequiredText(f: Field, lo: nat, hi: nat) {
    f.Text? && lo <= |f.value| <= hi
  }

  /** A required `str` field with only a minimum length. */
  predicate RequiredTextAtLeast(f: Field, lo: nat) {
    f.Text? && lo <= |f.value|
  }

  /** An `Optional[str]` field with a maximum length: absent and `null` are
      both accepted, a string must be short enough. */
  predicate OptionalText(f: Field, hi: nat) {
    f.Text? ==> |f.value| <= hi
  }

  /** The error locations pydantic reports for one field: its name when the
      field fails its check, nothing otherwise. */
  function Flag(name: string, ok: bool): (r: set<string>)
    ensures name in r <==> !ok
    ensures r <= {name}
  {
    if ok then {} else {name}
  }
}

=== FILE: journal_models.dfy ===
/** The record shapes of the store-backed journal (`api/models/entry.py`). */
module JournalModels {
  import opened Results
  import opened Errors
  import opened Fields

  /** The `max_length` of every entry text field. */
  const MaxTextLength: nat := 256

  /** The literal string `updated_at` defaults to: the text "None", not null. */
  const NeverUpdated: string := "None"

  datatype InputEntry = InputEntry(work: string, struggle: string, intention: string)

  /** A stored entry: `InputEntry` plus an id and two timestamp strings
      (`datetime.now().isoformat("#", "seconds")`), either of which may be
      null. */
  datatype EnrichedEntry = EnrichedEntry(
    work: string, struggle: string, intention: string,
    id: string, createdAt: Option<string>, updatedAt: Option<string>)

  /** `model_dump(exclude={"created_at", "updated_at"})`: the listing view. */
  datatype EntryView = EntryView(work: string, struggle: string, intention: string, id: string)

  /** Pydantic parsing of an `InputEntry` body: each field is required and
      a string of at most 256 characters; the error names every field that
      is not. */
  function ParseInputEntry(work: Field, struggle: Field, intention: Field): (r: Result<InputEntry, Error>)
    ensures r.Ok? <==>
      && RequiredText(work, 0, MaxTextLength)
      && RequiredText(struggle, 0, MaxTextLength)
      && RequiredText(intention, 0, MaxTextLength)
    ensures r.Ok? ==> r.value == InputEntry(work.value, struggle.value, intention.value)
    ensures r.Ok? ==> ValidInput(r.value)
    ensures r.Err? ==> r.error.ValidationError?
    ensures r.Err? ==>
      && ("work" in r.error.fields <==> !RequiredText(work, 0, MaxTextLength))
      && ("struggle" in r.error.fields <==> !RequiredText(struggle, 0, MaxTextLength))
      && ("intention" in r.error.fields <==> !RequiredText(intention, 0, MaxTextLength))
  {
    var bad :=
      Flag("work", RequiredText(work, 0, MaxTextLength))
      + Flag("struggle", RequiredText(struggle, 0, MaxTextLength))
      + Flag("intention", RequiredText(intention, 0, MaxTextLength));
    if bad == {} then Ok(InputEntry(work.value, struggle.value, intention.value))
    else Err(ValidationError(bad))
  }

  /** `EnrichedEntry(**input.model_dump())` with the id and the timestamp
      the default factories would produce. */
  function Enrich(input: InputEntry, freshId: string, nowIso: string): (r: EnrichedEntry)
    ensures r.work == input.work && r.struggle == input.struggle && r.intention == input.intention
    ensures r.id == freshId && r.createdAt == Some(nowIso)
    ensures r.updatedAt == Some(NeverUpdated)
    ensures ValidInput(input) ==> WithinLimits(r)
  {
    EnrichedEntry(input.work, input.struggle, input.intention, freshId, Some(nowIso), Some(NeverUpdated))
  }

  function View(e: EnrichedEntry): EntryView {
    EntryView(e.work, e.struggle, e.intention, e.id)
  }

  /** The length limits a parsed `InputEntry` satisfies. */
  predicate ValidInput(i: InputEntry) {
    |i.work| <= MaxTextLength && |i.struggle| <= MaxTextLength && |i.intention| <= MaxTextLength
  }

  /** The same limits on a stored entry. */
  predicate WithinLimits(e: EnrichedEntry) {
    |e.work| <= MaxTextLength && |e.struggle| <= MaxTextLength && |e.intention| <= MaxTextLength
  }
}

=== FILE: memory_journal.dfy ===
/** The in-memory journal of `main.py`: a module-level dict from entry id to
    `EntryResponse`, and the five route handlers that read and change it.
    Each handler is a function from the dict before the request to its
    reply and the dict after; a raised `HTTPException` leaves the dict as
    it was. */
module MemoryJournal {
  import opened Results
  import opened Errors
  import opened Fields
  import opened OrderedMaps
  import opened EntryModels

  type Entries = OrderedMap<EntryResponse>

  /** The dict's invariant: every entry is stored under its own id and
      respects the field limits. */
  ghost predicate Good(es: Entries) {
    && Valid(es)
    && forall k :: k in es.items ==> es.items[k].id == k && WithinLimits(es.items[k])
  }

  /** The 404 `HTTPException` raised for an unknown id. */
  function NotFound(id: string): Error {
    HttpError(NotFoundStatus, "Journal entry with id " + id + " not found")
  }

  function DeletedMessage(id: string): string {
    "Journal entry with id " + id + " has been deleted."
  }

  /** The stored value of one text field after an update: replaced when the
      request set it to a string, kept when the request left it out. A
      request that sets it to `null` keeps it too; see `UpdateObjectAsWritten`
      for what the code does instead. */
  function Patched(stored: string, f: Field): (r: string)
    ensures f.Text? ==> r == f.value
    ensures !f.Text? ==> r == stored
  {
    if f.Text? then f.value else stored
  }

  /** The entry after an update: the fields the request set replaced, the
      update time set, the id and the creation time untouched. */
  function ApplyUpdate(e: EntryResponse, u: EntryUpdate, now: Instant): (r: EntryResponse)
    ensures r.intention == Patched(e.intention, u.intention)
    ensures r.work == Patched(e.work, u.work)
    ensures r.struggle == Patched(e.struggle, u.struggle)
    ensures r.id == e.id && r.createdAt == e.createdAt
    ensures r.updatedAt == Some(now)
    ensures WithinLimits(e) && ValidUpdate(u) ==> WithinLimits(r)
  {
    e.(intention := Patched(e.intention, u.intention),
       work := Patched(e.work, u.work),
       struggle := Patched(e.struggle, u.struggle),
       updatedAt := Some(now))
  }

  /** `POST /entries/`: a new entry with a fresh id, stored under that id
      and returned. */
  function CreateEntry(es: Entries, data: EntryCreate, freshId: string, now: Instant)
    : (r: (EntryResponse, Entries))
    requires Valid(es)
    ensures var e := r.0;
      && e.intention == data.intention && e.work == data.work && e.struggle == data.struggle
      && e.id == freshId && e.createdAt == now && e.updatedAt == None
    ensures r.1.items == es.items[freshId := r.0]
    ensures freshId !in es.items ==> r.1.keys == es.keys + [freshId]
    ensures Valid(r.1)
    ensures Good(es) && ValidCreate(data) ==> Good(r.1)
  {
    var e := NewResponse(data, freshId, now);
    (e, Put(es, e.id, e))
  }

  /** `GET /entries/`: one summary per stored entry, in insertion order. */
  function GetEntries(es: Entries): (r: seq<EntrySummary>)
    requires Valid(es)
    ensures |r| == |es.keys|
    ensures forall i :: 0 <= i < |r| ==>
      r[i].id == es.keys[i] && r[i].intention == es.items[es.keys[i]].intention
  {
    seq(|es.keys|, i requires 0 <= i < |es.keys| =>
      EntrySummary(es.keys[i], es.items[es.keys[i]].intention))
  }

  /** `GET /entries/{entry_id}`. */
  function GetAnEntry(es: Entries, id: string): (r: Result<EntryResponse, Error>)
    ensures r.Ok? <==> id in es.items
    ensures r.Ok? ==> r.value == es.items[id]
    ensures r.Err? ==> r.error == NotFound(id)
  {
    if id in es.items then Ok(es.items[id]) else Err(NotFound(id))
  }

  /** `PUT /entries/{entry_id}`: the stored entry with the set fields
      replaced and the update time set; 404 for an unknown id. */
  function UpdateEntry(es: Entries, id: string, u: EntryUpdate, now: Instant)
    : (r: Result<(EntryResponse, Entries), Error>)
    requires Valid(es)
    ensures r.Ok? <==> id in es.items
    ensures r.Err? ==> r.error == NotFound(id)
    ensures r.Ok? ==> r.value.0 == ApplyUpdate(es.items[id], u, now)
    ensures r.Ok? ==> r.value.1.items == es.items[id := r.value.0] && r.value.1.keys == es.keys
    ensures r.Ok? ==> Valid(r.value.1)
    ensures r.Ok? && Good(es) && ValidUpdate(u) ==> Good(r.value.1)
  {
    if id !in es.items then Err(NotFound(id))
    else
      var e := ApplyUpdate(es.items[id], u, now);
      Ok((e, Put(es, id, e)))
  }

  /** `DELETE /entries/{entry_id}`: removes that entry only; 404 for an
      unknown id. */
  function DeleteEntry(es: Entries, id: string): (r: Result<(string, Entries), Error>)
    requires Valid(es)
    ensures r.Ok? <==> id in es.items
    ensures r.Err? ==> r.error == NotFound(id)
    ensures r.Ok? ==> r.value.0 == DeletedMessage(id)
    ensures r.Ok? ==> Valid(r.value.1) && r.value.1.items == es.items - {id}
    ensures r.Ok? && Good(es) ==> Good(r.value.1)
  {
    if id !in es.items then Err(NotFound(id))
    else Ok((DeletedMessage(id), Remove(es, id)))
  }

  /** The listing names every stored id exactly once. */
  lemma SummariesCoverStore(es: Entries)
    requires Good(es)
    ensures var r := GetEntries(es);
      && (set i | 0 <= i < |r| :: r[i].id) == es.items.Keys
      && forall i, j :: 0 <= i < j < |r| ==> r[i].id != r[j].id
  {
  }

  /** A created entry reads back unchanged, never updated. */
  lemma CreateThenGet(es: Entries, data: EntryCreate, freshId: string, now: Instant)
    requires Good(es)
    ensures var (e, es') := CreateEntry(es, data, freshId, now);
      GetAnEntry(es', freshId) == Ok(e) && e.updatedAt == None
  {
  }

  /** Creating an entry under a new id appends exactly its summary to the
      listing; the summaries before it are unchanged. */
  lemma CreateThenList(es: Entries, data: EntryCreate, freshId: string, now: Instant)
    requires Good(es) && ValidCreate(data) && freshId !in es.items
    ensures GetEntries(CreateEntry(es, data, freshId, now).1)
         == GetEntries(es) + [EntrySummary(freshId, data.intention)]
  {
  }

  /** An update reads back as the merged entry, and an unknown id fails the
      same way for reading and for updating. */
  lemma UpdateThenGet(es: Entries, id: string, u: EntryUpdate, now: Instant)
    requires Good(es)
    ensures var r := UpdateEntry(es, id, u, now);
      && (r.Ok? ==> GetAnEntry(r.value.1, id) == Ok(r.value.0))
      && (r.Err? ==> GetAnEntry(es, id) == Err(r.error))
  {
  }

  /** After a delete the id is unknown, and the remaining entries keep
      their relative order in the listing. */
  lemma DeleteThenGet(es: Entries, i: nat)
    requires Good(es) && i < |es.keys|
    ensures var id := es.keys[i]; var r := DeleteEntry(es, id);
      && r.Ok?
      && GetAnEntry(r.value.1, id) == Err(NotFound(id))
      && r.value.1.keys == es.keys[..i] + es.keys[i + 1..]
  {
    WithoutSplices(es.keys, i);
  }

  // ---- The update as written ----

  /** An entry object after `setattr` has run on it: a text attribute can
      hold `None`, because pydantic does not check assignments. */
  datatype EntryObject = EntryObject(
    intention: Option<string>, work: Option<string>, struggle: Option<string>,
    id: string, createdAt: Instant, updatedAt: Option<Instant>)

  /** The dict as the code as written keeps it: a dict of such objects. */
  type Objects = OrderedMap<EntryObject>

  /** An entry as the object the dict holds. */
  function Lift(e: EntryResponse): (o: EntryObject)
    ensures o.id == e.id && o.createdAt == e.createdAt && o.updatedAt == e.updatedAt
    ensures o.intention.Some? && o.work.Some? && o.struggle.Some?
  {
    EntryObject(Some(e.intention), Some(e.work), Some(e.struggle), e.id, e.createdAt, e.updatedAt)
  }

  /** The whole dict as objects, in the same order. */
  function LiftAll(es: Entries): (os: Objects)
    requires Valid(es)
    ensures Valid(os) && os.keys == es.keys && os.items.Keys == es.items.Keys
    ensures forall k :: k in os.items ==> os.items[k] == Lift(es.items[k])
  {
    OrderedMap(es.keys, map k | k in es.items :: Lift(es.items[k]))
  }

  /** One attribute after the loop over `model_dump(exclude_unset=True)`:
      an explicit `null` is a set field, so it is assigned. */
  function SetattrAsWritten(stored: Option<string>, f: Field): (r: Option<string>)
    ensures f.Null? ==> r == None
    ensures f.Text? ==> r == Some(f.value)
    ensures f.Absent? ==> r == stored
  {
    match f
    case Absent => stored
    case Null => None
    case Text(s) => Some(s)
  }

  /** The object after `update_entry`'s loop exactly as written: every
      explicitly set field is assigned, `null` included; the id and the
      creation time are skipped and the update time is set. */
  function UpdateObjectAsWritten(o: EntryObject, u: EntryUpdate, now: Instant): (r: EntryObject)
    ensures r.intention == None <==> u.intention.Null? || (u.intention.Absent? && o.intention == None)
    ensures r.work == None <==> u.work.Null? || (u.work.Absent? && o.work == None)
    ensures r.struggle == None <==> u.struggle.Null? || (u.struggle.Absent? && o.struggle == None)
    ensures r.id == o.id && r.createdAt == o.createdAt && r.updatedAt == Some(now)
    ensures forall e :: o == Lift(e) && u.intention.Text? ==> r.intention == Some(Patched(e.intention, u.intention))
    ensures forall e :: o == Lift(e) && u.work.Text? ==> r.work == Some(Patched(e.work, u.work))
    ensures forall e :: o == Lift(e) && u.struggle.Text? ==> r.struggle == Some(Patched(e.struggle, u.struggle))
  {
    EntryObject(
      SetattrAsWritten(o.intention, u.intention),
      SetattrAsWritten(o.work, u.work),
      SetattrAsWritten(o.struggle, u.struggle),
      o.id, o.createdAt, Some(now))
  }

  /** One text attribute as `EntryResponse` validation sees it: a string of
      at most 256 characters. */
  predicate ValidAttribute(a: Option<string>) {
    a.Some? && Fits(a.value)
  }

  /** Validation of the object against `EntryResponse` (FastAPI's response
      model): every text field must be a string of at most 256 characters,
      and the error names every field that is not. */
  function AsResponse(o: EntryObject): (r: Result<EntryResponse, Error>)
    ensures r.Ok? <==> ValidAttribute(o.intention) && ValidAttribute(o.work) && ValidAttribute(o.struggle)
    ensures r.Ok? ==> WithinLimits(r.value) && Lift(r.value) == o
    ensures r.Err? ==> r.error.ValidationError?
    ensures r.Err? ==>
      && ("intention" in r.error.fields <==> !ValidAttribute(o.intention))
      && ("work" in r.error.fields <==> !ValidAttribute(o.work))
      && ("struggle" in r.error.fields <==> !ValidAttribute(o.struggle))
  {
    var bad :=
      Flag("intention", ValidAttribute(o.intention))
      + Flag("work", ValidAttribute(o.work))
      + Flag("struggle", ValidAttribute(o.struggle));
    if bad == {} then
      Ok(EntryResponse(o.intention.value, o.work.value, o.struggle.value, o.id, o.createdAt, o.updatedAt))
    else Err(ValidationError(bad))
  }

  /** `PUT /entries/{entry_id}` as written: 404 for an unknown id;
      otherwise the stored object is changed in place, whatever it ends up
      holding, and the reply is that object validated against
      `EntryResponse`. */
  function UpdateEntryAsWritten(os: Objects, id: string, u: EntryUpdate, now: Instant)
    : (r: Result<(Result<EntryResponse, Error>, Objects), Error>)
    requires Valid(os)
    ensures r.Ok? <==> id in os.items
    ensures r.Err? ==> r.error == NotFound(id)
    ensures r.Ok? ==> r.value.1.keys == os.keys
    ensures r.Ok? ==> r.value.1.items == os.items[id := UpdateObjectAsWritten(os.items[id], u, now)]
    ensures r.Ok? ==> r.value.0 == AsResponse(r.value.1.items[id])
    ensures r.Ok? ==> Valid(r.value.1)
  {
    if id !in os.items then Err(NotFound(id))
    else
      var o := UpdateObjectAsWritten(os.items[id], u, now);
      Ok((AsResponse(o), Put(os, id, o)))
  }

  /** `GET /entries/` as written: building `EntrySummary(intention=...)`
      fails for the first object whose intention is `None`. */
  function GetEntriesAsWritten(os: Objects): (r: Result<seq<EntrySummary>, Error>)
    requires Valid(os)
    ensures r.Ok? <==> forall k :: k in os.items ==> os.items[k].intention.Some?
    ensures r.Err? ==> r.error == ValidationError({"intention"})
    ensures r.Ok? ==> |r.value| == |os.keys|
    ensures r.Ok? ==> forall i :: 0 <= i < |r.value| ==>
      r.value[i] == EntrySummary(os.keys[i], os.items[os.keys[i]].intention.value)
  {
    if forall i :: 0 <= i < |os.keys| ==> os.items[os.keys[i]].intention.Some? then
      Ok(seq(|os.keys|, i requires 0 <= i < |os.keys| && os.items[os.keys[i]].intention.Some? =>
        EntrySummary(os.keys[i], os.items[os.keys[i]].intention.value)))
    else Err(ValidationError({"intention"}))
  }

  /** An entry within the limits passes response validation unchanged;
      together with `AsResponse`'s own contract, `Lift` and `AsResponse`
      are inverse on such entries. */
  lemma LiftValidates(e: EntryResponse)
    requires WithinLimits(e)
    ensures AsResponse(Lift(e)) == Ok(e)
  {
  }

  /** Without an explicit `null`, the object loop as written and
      `ApplyUpdate` build the same entry. */
  lemma AsWrittenAgreesWithoutNull(e: EntryResponse, u: EntryUpdate, now: Instant)
    requires WithinLimits(e) && ValidUpdate(u)
    requires !u.intention.Null? && !u.work.Null? && !u.struggle.Null?
    ensures AsResponse(UpdateObjectAsWritten(Lift(e), u, now)) == Ok(ApplyUpdate(e, u, now))
  {
  }

  /** Without an explicit `null`, the handler as written and `UpdateEntry`
      give the same reply and leave the same dict, and listing it succeeds
      with the same summaries. */
  lemma HandlersAgreeWithoutNull(es: Entries, id: string, u: EntryUpdate, now: Instant)
    requires Good(es) && ValidUpdate(u)
    requires !u.intention.Null? && !u.work.Null? && !u.struggle.Null?
    ensures var w := UpdateEntryAsWritten(LiftAll(es), id, u, now);
      var r := UpdateEntry(es, id, u, now);
      && (w.Err? <==> r.Err?)
      && (r.Err? ==> w.error == r.error)
      && (r.Ok? ==> w.value.0 == Ok(r.value.0) && w.value.1 == LiftAll(r.value.1))
      && (r.Ok? ==> GetEntriesAsWritten(w.value.1) == Ok(GetEntries(r.value.1)))
  {
    if id in es.items {
      var e := es.items[id];
      var e' := ApplyUpdate(e, u, now);
      var o := UpdateObjectAsWritten(Lift(e), u, now);
      AsWrittenAgreesWithoutNull(e, u, now);
      assert o == Lift(e');
      LiftValidates(e');
      LiftAllPut(es, id, e');
      ListingsAgree(Put(es, id, e'));
    }
  }

  /** Lifting commutes with storing an entry under a present key. */
  lemma LiftAllPut(es: Entries, id: string, e: EntryResponse)
    requires Valid(es) && id in es.items
    ensures Put(LiftAll(es), id, Lift(e)) == LiftAll(Put(es, id, e))
  {
    assert Put(LiftAll(es), id, Lift(e)).items == LiftAll(Put(es, id, e)).items;
  }

  /** The listing of a lifted dict is the corrected listing. */
  lemma ListingsAgree(es: Entries)
    requires Good(es)
    ensures GetEntriesAsWritten(LiftAll(es)) == Ok(GetEntries(es))
  {
    var os := LiftAll(es);
    assert forall k :: k in os.items ==> os.items[k].intention.Some?;
    var w := GetEntriesAsWritten(os);
    var g := GetEntries(es);
    assert w.Ok? && |w.value| == |g|;
    forall i | 0 <= i < |g|
      ensures w.value[i] == g[i]
    {
      var k := es.keys[i];
      assert k in es.items;
      assert os.items[k] == Lift(es.items[k]);
    }
    assert w.value == g;
  }

  /** The discrepancy: `{"intention": null}` is a valid `EntryUpdate`, and
      the code as written stores an entry whose intention is `None`, which
      is no longer an `EntryResponse`; `ApplyUpdate` keeps the old
      intention. */
  lemma NullIntentionBreaksEntry(e: EntryResponse, now: Instant)
    requires WithinLimits(e)
    ensures ParseEntryUpdate(Null, Absent, Absent).Ok?
    ensures UpdateObjectAsWritten(Lift(e), EntryUpdate(Null, Absent, Absent), now).intention == None
    ensures AsResponse(UpdateObjectAsWritten(Lift(e), EntryUpdate(Null, Absent, Absent), now))
         == Err(ValidationError({"intention"}))
    ensures ApplyUpdate(e, EntryUpdate(Null, Absent, Absent), now).intention == e.intention
  {
  }

  /** The discrepancy across the dict: after `{"intention": null}` on a
      stored id, the reply fails validation, the dict keeps the `None`, and
      the listing of that dict fails (`NullPersistsUntilRepaired` carries
      this through later updates); the corrected handler replies with the
      entry and its listing succeeds. */
  lemma NullUpdateBreaksListing(es: Entries, id: string, now: Instant)
    requires Good(es) && id in es.items
    ensures var w := UpdateEntryAsWritten(LiftAll(es), id, EntryUpdate(Null, Absent, Absent), now);
      && w.Ok?
      && w.value.0 == Err(ValidationError({"intention"}))
      && w.value.1.items[id].intention == None
      && GetEntriesAsWritten(w.value.1) == Err(ValidationError({"intention"}))
    ensures var r := UpdateEntry(es, id, EntryUpdate(Null, Absent, Absent), now);
      && r.Ok?
      && r.value.0.intention == es.items[id].intention
      && |GetEntries(r.value.1)| == |es.keys|
  {
  }

  /** A `None` intention stays until repaired: an update as written of any
      id keeps it unless it sets that very entry's intention, so the
      listing keeps failing; setting it to a string, or deleting the
      entry (`del`), when no other intention is `None`, makes the listing
      succeed again. */
  lemma NullPersistsUntilRepaired(os: Objects, id: string, other: string, u: EntryUpdate, now: Instant)
    requires Valid(os) && id in os.items && os.items[id].intention == None
    requires other in os.items
    ensures other != id || !u.intention.Text? ==>
      && UpdateEntryAsWritten(os, other, u, now).value.1.items[id].intention == None
      && GetEntriesAsWritten(UpdateEntryAsWritten(os, other, u, now).value.1).Err?
    ensures other == id && u.intention.Text? &&
            (forall k :: k in os.items && k != id ==> os.items[k].intention.Some?) ==>
      GetEntriesAsWritten(UpdateEntryAsWritten(os, other, u, now).value.1).Ok?
    ensures (forall k :: k in os.items && k != id ==> os.items[k].intention.Some?) ==>
      GetEntriesAsWritten(Remove(os, id)).Ok?
  {
  }
}

=== FILE: ordered_map.dfy ===
/** A string-keyed Python `dict`: a map together with the order in which
    its keys were first inserted, which is the order iteration visits them.
    Assigning to a present key keeps its place; `del` closes the gap. */
module OrderedMaps {

  datatype OrderedMap<V> = OrderedMap(keys: seq<string>, items: map<string, V>)

  ghost predicate Distinct(keys: seq<string>) {
    forall i, j :: 0 <= i < j < |keys| ==> keys[i] != keys[j]
  }

  /** The order lists every key of the map exactly once. */
  ghost predicate Valid<V>(m: OrderedMap<V>) {
    && Distinct(m.keys)
    && (forall k :: k in m.items <==> k in m.keys)
  }

  function Empty<V>(): (m: OrderedMap<V>)
    ensures Valid(m) && m.items == map[]
  {
    OrderedMap([], map[])
  }

  /** `d[k] = v`. */
  function Put<V>(m: OrderedMap<V>, k: string, v: V): (r: OrderedMap<V>)
    requires Valid(m)
    ensures Valid(r)
    ensures r.items == m.items[k := v]
    ensures k in m.items ==> r.keys == m.keys
    ensures k !in m.items ==> r.keys == m.keys + [k]
  {
    if k in m.items then OrderedMap(m.keys, m.items[k := v])
    else OrderedMap(m.keys + [k], m.items[k := v])
  }

  /** `keys` with every occurrence of `k` dropped, the rest in order. */
  function Without(keys: seq<string>, k: string): (r: seq<string>)
    ensures forall x :: x in r <==> x in keys && x != k
    ensures Distinct(keys) ==> Distinct(r)
    ensures k !in keys ==> r == keys
  {
    if keys == [] then []
    else
      var rest := Without(keys[1..], k);
      assert keys == [keys[0]] + keys[1..];
      if keys[0] == k then rest
      else
        assert Distinct(keys) ==> keys[0] !in rest;
        [keys[0]] + rest
  }

  /** A dict is empty exactly when its order is. */
  lemma EmptyIffNoKeys<V>(m: OrderedMap<V>)
    requires Valid(m)
    ensures m.keys == [] <==> m.items == map[]
  {
    if m.keys != [] {
      assert m.keys[0] in m.items;
    }
  }

  /** `del d[k]` for a present key. */
  function Remove<V>(m: OrderedMap<V>, k: string): (r: OrderedMap<V>)
    requires Valid(m)
    ensures Valid(r)
    ensures r.items == m.items - {k}
    ensures r.keys == Without(m.keys, k)
  {
    OrderedMap(Without(m.keys, k), m.items - {k})
  }

  /** The values in iteration order: `list(d.values())`. */
  function Values<V>(m: OrderedMap<V>): (vs: seq<V>)
    requires Valid(m)
    ensures |vs| == |m.keys|
    ensures forall i :: 0 <= i < |vs| ==> vs[i] == m.items[m.keys[i]]
  {
    seq(|m.keys|, i requires 0 <= i < |m.keys| => m.items[m.keys[i]])
  }

  /** Deleting the key at position `i` closes the gap and keeps every
      other key where it was relative to the rest. */
  lemma {:induction false} WithoutSplices(keys: seq<string>, i: nat)
    requires Distinct(keys) && i < |keys|
    ensures Without(keys, keys[i]) == keys[..i] + keys[i + 1..]
    decreases |keys|
  {
    var k := keys[i];
    var tail := keys[1..];
    if i == 0 {
      assert Without(keys, k) == Without(tail, k);
    } else {
      assert tail[i - 1] == k;
      WithoutSplices(tail, i - 1);
      assert keys[0] != k;
      assert Without(keys, k) == [keys[0]] + Without(tail, k);
      assert tail[..i - 1] + tail[i..] == keys[1..i] + keys[i + 1..];
      assert keys[..i] == [keys[0]] + keys[1..i];
    }
  }
}

=== FILE: results.dfy ===
/** Success-or-error and present-or-absent values, used wherever the
    Python code returns `None` or raises an exception. */
module Results {

  /** A value that may be absent (Python's `Optional[...]`). */
  datatype Option<T> = None | Some(value: T)

  /** The outcome of an operation that either returns a value or raises. */
  datatype Result<T, E> = Ok(value: T) | Err(error: E)
}

=== FILE: text.dfy ===
/** Python's `str.strip()` with no argument, and the blank test the entry
    service builds on it. */
module Text {

  /** The characters Python's `str.isspace()` accepts; `strip()` removes
      exactly these from both ends. */
  predicate IsSpace(c: char) {
    || c == ' ' || c == '\t' || c == '\n' || c == '\r'
    || c == '\U{0B}' || c == '\U{0C}'
    || ('\U{1C}' <= c <= '\U{1F}')
    || c == '\U{85}' || c == '\U{A0}' || c == '\U{1680}'
    || ('\U{2000}' <= c <= '\U{200A}')
    || c == '\U{2028}' || c == '\U{2029}' || c == '\U{202F}'
    || c == '\U{205F}' || c == '\U{3000}'
  }

  /** True when every character of `s` is whitespace (so also for ""). */
  predicate AllSpace(s: string) {
    forall i :: 0 <= i < |s| ==> IsSpace(s[i])
  }

  /** The first index at or after `i` that does not hold whitespace, or
      `|s|` when there is none. */
  function SkipSpace(s: string, i: nat): (k: nat)
    requires i <= |s|
    ensures i <= k <= |s|
    ensures forall j :: i <= j < k ==> IsSpace(s[j])
    ensures k == |s| || !IsSpace(s[k])
    decreases |s| - i
  {
    if i < |s| && IsSpace(s[i]) then SkipSpace(s, i + 1) else i
  }

  /** The end of `s[lo..hi]` once its trailing whitespace is dropped. */
  function SkipSpaceBack(s: string, lo: nat, hi: nat): (k: nat)
    requires lo <= hi <= |s|
    ensures lo <= k <= hi
    ensures forall j :: k <= j < hi ==> IsSpace(s[j])
    ensures k == lo || !IsSpace(s[k - 1])
    decreases hi - lo
  {
    if lo < hi && IsSpace(s[hi - 1]) then SkipSpaceBack(s, lo, hi - 1) else hi
  }

  /** How many whitespace characters `s` starts with. */
  function LeadingSpace(s: string): (n: nat)
    ensures n <= |s|
    ensures AllSpace(s[..n])
  {
    var n := SkipSpace(s, 0);
    assert forall j :: 0 <= j < n ==> s[..n][j] == s[j];
    n
  }

  /** `s.strip()`: the slice of `s` after its leading whitespace that
      neither starts nor ends with whitespace and is followed only by
      whitespace; empty exactly when `s` is all whitespace. */
  function Strip(s: string): (r: string)
    ensures r == [] <==> AllSpace(s)
    ensures r != [] ==> !IsSpace(r[0]) && !IsSpace(r[|r| - 1])
    ensures LeadingSpace(s) + |r| <= |s|
    ensures r == s[LeadingSpace(s)..LeadingSpace(s) + |r|]
    ensures AllSpace(s[LeadingSpace(s) + |r|..])
  {
    var a := SkipSpace(s, 0);
    var b := SkipSpaceBack(s, a, |s|);
    assert a < b ==> s[a..b][0] == s[a] && s[a..b][b - a - 1] == s[b - 1];
    assert a == b ==> a == |s|;
    assert forall j :: 0 <= j < |s| - b ==> s[b..][j] == s[b + j];
    s[a..b]
  }

  /** Python's truth value of `s.strip()` negated: true for an empty or
      whitespace-only string. */
  predicate IsBlank(s: string) {
    Strip(s) == []
  }
}

=== FILE: user_models.dfy ===
/** The user record shapes (`api/models/user.py`). */
module UserModels {
  import opened Results
  import opened Errors
  import opened Fields

  const MinUsernameLength: nat := 2
  const MaxUsernameLength: nat := 25
  const MinPasswordLength: nat := 2

  /** `disabled` defaults to false and is never set by this code. */
  datatype User = User(id: string, username: string, disabled: bool)

  /** A `User` together with its password hash. */
  datatype UserInDB = UserInDB(user: User, hashedPassword: string)

  datatype CreateUser = CreateUser(username: string, password: string)

  /** `UserInDB(username=..., hashed_password=...)`: the id from the default
      factory and `disabled` at its default. */
  function NewUserInDB(freshId: string, username: string, hashedPassword: string): (r: UserInDB)
    ensures r.user.id == freshId && r.user.username == username
    ensures !r.user.disabled
    ensures r.hashedPassword == hashedPassword
  {
    UserInDB(User(freshId, username, false), hashedPassword)
  }

  /** Pydantic parsing of a registration body: a username of 2 to 25
      characters and a password of at least 2. */
  function ParseCreateUser(username: Field, password: Field): (r: Result<CreateUser, Error>)
    ensures r.Ok? <==>
      && RequiredText(username, MinUsernameLength, MaxUsernameLength)
      && RequiredTextAtLeast(password, MinPasswordLength)
    ensures r.Ok? ==> r.value == CreateUser(username.value, password.value)
    ensures r.Err? ==> r.error.ValidationError?
    ensures r.Err? ==>
      && ("username" in r.error.fields <==> !RequiredText(username, MinUsernameLength, MaxUsernameLength))
      && ("password" in r.error.fields <==> !RequiredTextAtLeast(password, MinPasswordLength))
  {
    var bad :=
      Flag("username", RequiredText(username, MinUsernameLength, MaxUsernameLength))
      + Flag("password", RequiredTextAtLeast(password, MinPasswordLength));
    if bad == {} then Ok(CreateUser(username.value, password.value))
    else Err(ValidationError(bad))
  }
}
